=== FILE: README.md ===
# Model viewer: decision logic in Dafny

The viewer is a browser page that shows 3D meshes and Luma splat captures, on
the desktop and in WebXR. Nearly all of `app.js` is glue around three.js, its
format loaders, the Luma splat component, WebXR and the DOM. This project
models only the pure decision logic underneath that glue. Strings, integers
and reals stand in for the JavaScript values.

- **Model-source classification** (`model_source.dfy`, on top of `text.dfy`).
  A URL is first tested for the Luma capture pattern. Otherwise the lower-cased
  text after its last `.` is taken as the extension, and `glt` becomes `gltf`.
  The extension picks the GLTF/GLB, FBX, OBJ, STL or PLY loader, or yields
  `Unsupported format: <ext>`. For OBJ files the MTL URL is the URL with its
  first `.obj` replaced by `.mtl`. Two known asset families get a rotation
  correction. The third known capture gets camera height -1.
- **Thumbstick reading** (`thumbstick.dfy`). `getThumbstickY` looks at every
  input source's gamepad. It takes `axes[1]`, and also `axes[3]` when there
  are at least four axes. The strongest value wins, and the deadzone is 0.15.
  The value is modelled both as a fold and as the source's loop.
- **VR interaction state** (`vr_interaction.dfy`). This covers grab begin and
  end, and the controller-delta update of the yaw and pitch targets, with
  pitch clamped to ±0.49π. It also covers the thumbstick step on the distance
  target, clamped to [0.3, 3.5], and 0.18 exponential smoothing. Finally it
  covers the reset done by placement, the session start and end handlers, and
  the XR part of an animation frame. A run of events from page load keeps
  pitch and distance in range.
- **Splat background presets** (`splat_presets.dfy`). A two-entry preset
  table is cycled by `(i + 1) % 2`. Each preset sets a clear colour and alpha,
  a button text and a semantics mask. One of three shader hooks is chosen:
  cut at 0.3, cut at 0.8, or pass-through. The link container's `bg-on` and
  `fullscreen-bg-on` classes are decided from the preset and fullscreen.

`wrappers.dfy` holds `Option`/`Result`. `real_math.dfy` holds `Math.PI`,
`Math.abs` and the clamp to a range that the viewer writes with `Math.max` and `Math.min`.

Behaviour worth knowing that the model states as written:

- The extension test lower-cases the URL. The MTL derivation does not, so
  `A.OBJ` is loaded as OBJ with `A.OBJ` itself as its MTL URL
  (`ModelSource.MtlUrlIsCaseSensitive`). An earlier `.obj` inside the path is
  also the one that gets replaced.
- `applyStateForCurrent` calls the background "on" when the preset has a clear
  colour. `updateLinkColors` calls it "shown" when the preset has none. The two
  flags are always complements (`SplatPresets.LinkBgOnIsOppositeOfHookBgOn`).
- Starting a session with no object resets the angles but not the distance.
  The distance is reset only when placement runs.
- The OBJ rotation fix tests `affe_lowpoly_tris.obj`, `affe` and `monkey`. The
  first name always contains the second, so it never decides anything
  (`ModelSource.LongMonkeyNameIsRedundant`).
- On a tie in stick magnitude the earlier value wins: within a source `axes[1]`
  beats `axes[3]`, and across sources the first one wins. So a full push up on
  one stick and a full push down on the other moves the object by the first one.
- Because `bgOn` means "the preset has a clear colour", the 0.3 cut applies to the
  first capture under preset 1 (foreground only). The 0.8 cut applies to the
  second capture under preset 0 (foreground and background).

## Model

| member | source | states |
|---|---|---|
| `ModelSource.IsLumaCapture` | app.js:189-191 | A URL is a capture exactly when `lumalabs.ai/capture/` occurs somewhere in it, ignoring ASCII letter case |
| `ModelSource.CaptureTestIgnoresCase` | app.js:190 | Lower-casing a URL never changes the capture verdict |
| `ModelSource.CaptureTestSurvivesContext` | app.js:190 | A capture URL stays one with any text added before or after it, because the match is unanchored |
| `ModelSource.Extension` | app.js:303-304 | The extension has no `.` and no upper-case letter. It is a suffix of the lower-cased URL, and it is either the whole URL or preceded by a `.`, so it is the text after the last `.` |
| `ModelSource.NormalizeExtension` | app.js:305 | `glt` becomes `gltf`, every other extension is unchanged, and the result is never `glt` |
| `ModelSource.NormalizeKeepsFormat` | app.js:305 | Normalising never changes whether an extension is in the supported table, nor the format the table gives it |
| `Text.Split` | app.js:304 | `split('.')` returns at least one piece, and none of the pieces contains `.`. Its last piece, which `pop` returns, is the text after the last `.` |
| `ModelSource.Dispatch` | app.js:345-398 | A non-capture extension succeeds exactly when it is in the supported-extension table, which lists `glt` as an alias of `gltf`. On success the chosen loader's format is the table's format. OBJ carries the MTL URL. Failure carries `Unsupported format: <ext>` |
| `ModelSource.Classify` | app.js:303-398 | A capture URL always takes the splat path with its camera height. Otherwise the URL succeeds exactly when its extension is in the table and fails with the unsupported-format message otherwise. The OBJ MTL URL and the rotation fix come from the URL |
| `ModelSource.CaptureWinsOverExtension` | app.js:311 | A capture URL takes the splat path whatever extension follows it |
| `ModelSource.MtlUrlOfObjPath` | app.js:364 | For a stem without `.obj`, the MTL URL of `stem + ".obj"` is `stem + ".mtl"`. Only the first occurrence is replaced, so this needs `.obj` not to overlap itself |
| `ModelSource.MtlUrl` | app.js:364 | The MTL URL has the URL's length. Without a case-sensitive `.obj` in it, it is the URL itself. Otherwise it is the URL with the first `.obj` replaced by `.mtl` |
| `ModelSource.MtlUrlIsCaseSensitive` | app.js:303-364 | `A.OBJ` has extension `obj`, but its MTL URL is `A.OBJ` unchanged |
| `ModelSource.RotationFix` | app.js:351-379 | Only GLTF/GLB and OBJ can get a rotation fix. GLTF gets one exactly when the lower-cased URL contains `bienenkasten.glb` or `beehive`, and it is (π/6, π/1.1). OBJ gets one exactly when it contains `affe_lowpoly_tris.obj`, `affe` or `monkey`, and it is (π/8, π/1.1) |
| `ModelSource.RotationFixFollowsRules` | app.js:351-379 | Against an independent table of (format, names, rotation) rules: a fix exists exactly when some rule's format matches and one of its names occurs, and the fix is that rule's rotation |
| `ModelSource.LongMonkeyNameIsRedundant` | app.js:376 | A URL containing `affe_lowpoly_tris.obj` also contains `affe`, and gets the OBJ fix (π/8, π/1.1) |
| `ModelSource.SplatCameraY` | app.js:324-327 | The camera height is -1 exactly for the third known capture, and 0 for every other capture |
| `ModelSource.PatternMakesCapture` | app.js:189-191 | A URL in which the lower-case capture pattern occurs at some index passes the capture test |
| `ModelSource.CapturePageUrlIsCapture` | app.js:189-191 | Every URL beginning with the capture page's address `https://lumalabs.ai/capture/` is a capture |
| `ModelSource.KnownCaptureCameraHeights` | app.js:311-327 | The three known captures all take the splat path. The third starts with camera height -1, the other two with 0 |
| `Text.AfterLastOfLower` | app.js:303-304 | The text after the last `.` of the lower-cased URL is a lower-case suffix of it, preceded in the original URL by a `.` unless it is the whole URL |
| `Text.ReplaceFirst` | app.js:364 | Without an occurrence the string is unchanged. Otherwise only the leftmost occurrence is replaced |
| `Thumbstick.Candidates` | app.js:285-289 | Sources with fewer than two axes offer nothing. `axes[1]` is always offered, and offered first. `axes[3]` is offered only when there are at least four axes, and nothing else is offered |
| `Thumbstick.Strongest` | app.js:291 | The reduce result is 0 or one of the candidates, and no candidate is larger in magnitude |
| `Thumbstick.StrongestPicksFirst` | app.js:291 | On a tie the reduce keeps the earliest candidate: a nonzero result is a candidate strictly larger in magnitude than every candidate before it |
| `Thumbstick.Pick` | app.js:291-295 | One source's strongest value replaces the running value exactly when it is larger in magnitude than both the running value and the deadzone, so the running value never shrinks in magnitude |
| `Thumbstick.StickY` | app.js:282-297 | The fold over the input sources yields 0 or a value beyond the 0.15 deadzone |
| `Thumbstick.ThumbstickY` | app.js:278-298 | Without a session the stick reads 0. Otherwise it reads 0 or a value beyond the deadzone |
| `Thumbstick.ReduceStrongest` | app.js:291 | The loop over one source's candidates computes the `reduce`: 0 or a candidate, and no candidate is larger in magnitude |
| `Thumbstick.StickYOffered` | app.js:282-297 | A nonzero stick value is a value some input source offered |
| `Thumbstick.StickYDominates` | app.js:282-297 | No offered value beyond the 0.15 deadzone is larger in magnitude than the stick value |
| `Thumbstick.StickYSpec` | app.js:278-298 | The stick value is 0 or beyond the 0.15 deadzone. A nonzero value is one some source offered. No offered value beyond the deadzone is larger in magnitude. The value is 0 exactly when every offered value is inside the deadzone |
| `Thumbstick.FirstSourceWins` | app.js:283-296 | A nonzero stick value is the strongest value of some source, and every candidate of every earlier source is strictly smaller in magnitude. So on a tie the first source wins |
| `Thumbstick.ReadThumbstickY` | app.js:278-298 | The loop computes the fold's value. Without a session it returns 0. Otherwise it has the properties above, including that the first source reaching the largest magnitude supplies the value |
| `VrInteraction.BeginRotate` | app.js:250-254 | Beginning a grab activates it, records the controller and its current position, keeps the grab consistent, and touches nothing else |
| `VrInteraction.EndRotate` | app.js:256-259 | Ending a grab clears both the active flag and the controller, keeps the last position, and keeps the invariant |
| `VrInteraction.UpdateControllerRotation` | app.js:261-275 | This is a no-op unless in XR, grabbing and showing an object. Otherwise the yaw target grows by `dx*1.6`. The pitch target becomes the raw value `pitch - dy*1.6` when that is within ±0.49π, and the nearer bound otherwise, so it always ends in range. The last position becomes the current one, and nothing else changes |
| `VrInteraction.StepDistanceTarget` | app.js:599-603 | A zero stick leaves the target unchanged. A nonzero stick always lands in [0.3, 3.5]. The result is `target + y*0.025` when that is in range, 0.3 when it is below, and 3.5 when it is above. An in-range target stays in range. Pushing up never moves it farther, and pushing down never moves it closer |
| `VrInteraction.SmoothStep` | app.js:590-591 | One step lands between the value and the target and leaves 0.82 of the gap. It moves the value unless the value is already at the target |
| `VrInteraction.SmoothingConverges` | app.js:589-606 | With a constant target, after n frames the gap is exactly 0.82^n of the original one and the value lies between its start and the target, so there is no overshoot |
| `VrInteraction.SmoothingGap` | app.js:589-591 | After n frames toward a constant target the remaining gap is the original gap multiplied by 0.82, n times over |
| `VrInteraction.Place` | app.js:239-247 | Placement zeroes the angle targets and smoothed angles, sets both distances to the given distance, and records the heading. With an in-range distance it establishes the invariant |
| `VrInteraction.PlacedObjectRests` | app.js:239-244 | After placement at 1.0, a frame changes nothing when there is no grab and the stick reads 0, whatever the session |
| `VrInteraction.SessionStart` | app.js:550-559 | Session start enters XR and zeroes the angles. With an object present, it places the object at distance 1.0 along the current heading. Without one, it keeps the distance and the entry yaw |
| `VrInteraction.SessionEnd` | app.js:578-582 | Session end leaves XR and drops any grab |
| `VrInteraction.LoadStarted` | app.js:300-301 | A load first removes the current object |
| `VrInteraction.LoadSucceeded` | app.js:314-319 | A finished load has an object. In XR it is placed at distance 1.0 |
| `VrInteraction.Frame` | app.js:585-606 | Outside XR nothing changes. In XR the frame first applies the controller rotation, which fixes the grab and both angle targets. Yaw and pitch then take one 0.18 smoothing step toward those targets. The distance target takes the thumbstick step, and is untouched when the stick reads 0. The distance then takes one smoothing step toward it. The grab stays consistent and the invariant is kept |
| `VrInteraction.Frames` | app.js:585-606 | Repeated animation frames keep the grab consistent and leave the XR and object flags alone |
| `VrInteraction.FramesSmoothLikeIterate` | app.js:585-606 | In XR with no grab and the stick at rest, the grab and all three targets stay put. After n frames yaw, pitch and distance each equal n smoothing steps toward their targets, so the convergence lemma applies to the animation loop |
| `VrInteraction.Step` | app.js:93-102 | Each event runs its listener. Select start grabs with that controller. Select end and session end drop the grab. Session start and end enter and leave XR. A load start removes the object and a finished load adds it. A frame keeps XR and the object. Every event keeps the grab consistent |
| `VrInteraction.Run` | app.js:93-102 | Events are handled in order. No events leave the state unchanged, and the grab stays consistent |
| `VrInteraction.RunAppend` | app.js:93-102 | Handling two runs of events one after the other is the same as handling their concatenation |
| `VrInteraction.StepKeepsInv` | app.js:71-91 | Every event keeps pitch and distance, both the targets and the smoothed values, within their ranges |
| `VrInteraction.RunKeepsInv` | app.js:71-91 | Any sequence of events keeps the invariant |
| `VrInteraction.ReachableStatesInRange` | app.js:78-91 | Every state reachable from page load has pitch within ±0.49π and distance within [0.3, 3.5] |
| `SplatPresets.Toggle` | app.js:510 | Toggling yields a valid index different from the old one, and toggling again returns to the old index |
| `SplatPresets.ClearColorOf` | app.js:452 | Alpha is 1 exactly when the preset has a background colour and 0 exactly when it has none. The colour is the preset's, or black |
| `SplatPresets.HookFor` | app.js:461-505 | The 0.3 cut is chosen exactly for the first capture with the background off. The 0.8 cut is chosen exactly for the second capture with the background on. Pass-through is chosen in every other case |
| `SplatPresets.CutUnderExactlyOnePreset` | app.js:461-510 | Each of the two cut captures is cut under exactly one preset of each toggled pair: the first under the preset whose mask hides background points, the second under the one that shows them. Every other URL gets pass-through under both presets |
| `SplatPresets.Model3NeverCut` | app.js:463-505 | The third known capture always gets pass-through |
| `SplatPresets.ApplyState` | app.js:449-505 | The clear colour is the preset's, with alpha 1 exactly under preset 0, and the text is the preset's. There is no splat update exactly when the current object is not a splat or there is none. The mask is the preset's. The hook is the one `HookFor` picks with the background on exactly under preset 0. So the 0.3 cut is chosen exactly for the first capture under preset 1, the 0.8 cut exactly for the second capture under preset 0, and other URLs get pass-through |
| `SplatPresets.LinkClassesFor` | app.js:624-643 | `bg-on` is set exactly under preset 1, whose background is null. `fullscreen-bg-on` is set exactly when, in addition, the page is fullscreen |
| `SplatPresets.InitialPresetShowsPageBackground` | app.js:443-447 | The starting index is valid. On a page that is not fullscreen it gives `bg-on` without `fullscreen-bg-on`, a transparent clear, and the button text `Background` |
| `SplatPresets.ToggleUrl` | app.js:511 | A splat passes its own source as the URL; a non-splat object passes the empty URL |
| `SplatPresets.LinkBgOnIsOppositeOfHookBgOn` | app.js:449-505 | For a splat, the applied hook is the one chosen with `bgOn` equal to the negation of the link container's `bg-on` |
| `SplatPresets.OnToggleClick` | app.js:509-513 | A click changes only the preset index, to the other preset. It applies that preset's text and exactly that preset's clear colour, whose alpha therefore flips. A splat update is sent exactly when a splat object is loaded, with the new preset's mask and the hook for the source under that preset. `bg-on` flips, and `fullscreen-bg-on` is set exactly when in fullscreen with `bg-on` |
| `SplatPresets.ToggleTwiceRestores` | app.js:509-513 | Two clicks restore the index, the applied clear colour, text and splat update, and the link classes |

## Left out

- Geometry (`centerAndNormalize`, `frameByBox`): these depend on three.js world bounds, trigonometry and float vector maths.
- The format loaders, the MTL preload, `LumaSplatsThree` and the HDR environment are foreign calls. The loaded-but-empty error (`Model loaded but no scene/object found`) depends on a loader's result. The shader hooks are opaque GLSL, so only the choice of variant is modelled.
- Material preparation (`prepareMeshMaterial`) and disposal (`removeCurrent`) mutate library objects. Removal is modelled only as "no current object".
- Head-pose placement is left out: the camera position, forward vector and Euler yaw, and the per-frame world position along the entry yaw using sin/cos. The headset heading is a parameter. Setting the object's rotation to (pitch, yaw, 0) is left out.
- The WebXR reference-space offset (app.js:561-575) is quaternion maths over host objects.
- Async sequencing is left out: the race between overlapping loads, the `setTimeout` deferrals, alerts, the loading indicator and showing or hiding the toggle button. Also left out are the opaque clear set on the mesh path, which the deferred `applyStateForCurrent` overrides, fullscreen, resize, the VR button and DOM event registration.
- `updateLinkColors` does nothing when the link container is missing. That DOM lookup is not modelled.
- IEEE-754 is not modelled: all values are mathematical reals, `Math.PI` is the real 3.141592653589793, and NaN stick values are not represented.
- `ModelSource.Extension`: `toLowerCase` is modelled for ASCII letters only. For the capture regex (`/i` without `u`) that is exact, because that regex never folds a non-ASCII character onto an ASCII one. JavaScript lowers two non-ASCII characters to ASCII letters: KELVIN SIGN U+212A becomes `k`, and U+0130 becomes `i` plus a combining dot. No supported extension contains `k`, and the combining dot stays non-ASCII, so the choice of loader and success or failure are exact. Only the text of the unsupported-format message can differ.
- `ModelSource.RotationFix`: the names it tests include `k` (`bienenkasten.glb`, `monkey`), so a URL spelling that `k` as U+212A gets the fix in the browser but not in the model. Example: `MON\u212AEY.obj`.
- Controllers are the two values `Controller0`/`Controller1`. Their positions arrive per frame as a parameter instead of being read from the controller objects.

=== FILE: model_source.dfy ===
/**
 * How `loadAny` classifies a model URL before any loader runs: the Luma
 * capture test, the lower-cased extension after the last '.', the `glt`
 * alias, the choice of loader or the unsupported-format error, the MTL
 * companion URL of an OBJ file, the per-file rotation corrections and the
 * camera height of a splat capture.
 */
module ModelSource {
  import opened Wrappers
  import opened Text
  import SplatPresets
  import opened RealMath

  /** The capture-page pattern, matched case-insensitively anywhere in the URL. */
  const CapturePattern: string := "lumalabs.ai/capture/"

  /** The capture test: the pattern occurs anywhere in the URL, ignoring letter case. */
  function IsLumaCapture(url: string): (b: bool)
    ensures b <==> exists k :: OccursAt(ToLower(url), CapturePattern, k)
  {
    Contains(ToLower(url), CapturePattern)
  }

  /** The capture test ignores letter case. */
  lemma CaptureTestIgnoresCase(url: string)
    ensures IsLumaCapture(ToLower(url)) == IsLumaCapture(url)
  {
    ToLowerIdempotent(url);
  }

  /** A URL that names a capture still does when anything is put before or after it. */
  lemma CaptureTestSurvivesContext(pre: string, url: string, post: string)
    requires IsLumaCapture(url)
    ensures IsLumaCapture(pre + url + post)
  {
    var lower := ToLower(pre + url + post);
    assert lower == ToLower(pre) + ToLower(url) + ToLower(post);
    ContainsInContext(ToLower(pre), ToLower(url), ToLower(post), CapturePattern);
  }

  /**
   * The extension: the last piece of the lower-cased URL split at '.', that
   * is the lower-cased text after the last '.', or the whole lower-cased URL when it has no '.' (`Split`'s contract
   * says its last piece is exactly this text).
   */
  function Extension(url: string): (ext: string)
    ensures '.' !in ext
    ensures |ext| <= |url|
    ensures ext == ToLower(url)[|url| - |ext|..]
    ensures |ext| == |url| || url[|url| - |ext| - 1] == '.'
    ensures forall i :: 0 <= i < |ext| ==> !IsUpper(ext[i])
  {
    AfterLastOfLower(url, '.');
    AfterLast(ToLower(url), '.')
  }

  /** The `glt` spelling is read as `gltf`; every other extension is kept. */
  function NormalizeExtension(ext: string): (n: string)
    ensures n != "glt"
    ensures ext == "glt" ==> n == "gltf"
    ensures ext != "glt" ==> n == ext
  {
    if ext == "glt" then "gltf" else ext
  }

  /** The model formats `loadAny` can read. */
  datatype Format = Gltf | Fbx | Obj | Stl | Ply

  /**
   * The supported extensions as a table, independent of the if-chain in
   * `Classify`; `glt` is listed as an alias of `gltf`.
   */
  const FormatTable: map<string, Format> := map[
    "gltf" := Gltf, "glt" := Gltf, "glb" := Gltf,
    "fbx" := Fbx, "obj" := Obj, "stl" := Stl, "ply" := Ply
  ]

  /** Normalising an extension never changes whether it is supported, nor which format it names. */
  lemma NormalizeKeepsFormat(ext: string)
    ensures ext in FormatTable <==> NormalizeExtension(ext) in FormatTable
    ensures ext in FormatTable ==> FormatTable[NormalizeExtension(ext)] == FormatTable[ext]
  {
  }

  /** A rotation correction applied to a loaded model (Euler angles in radians). */
  datatype Rotation = Rotation(x: real, y: real)

  /** The loader to run; the OBJ loader first loads the MTL file at `mtlUrl`. */
  datatype Loader = GltfLoader | FbxLoader | ObjLoader(mtlUrl: string) | StlLoader | PlyLoader
  {
    function Format(): Format {
      match this
      case GltfLoader => Gltf
      case FbxLoader => Fbx
      case ObjLoader(_) => Obj
      case StlLoader => Stl
      case PlyLoader => Ply
    }
  }

  /** What `loadAny` will do with a URL. */
  datatype Plan =
    | SplatPlan(cameraY: real)
    | MeshPlan(loader: Loader, fix: Option<Rotation>)

  const ObjSuffix: string := ".obj"
  const MtlSuffix: string := ".mtl"

  /**
   * The MTL file an OBJ file is loaded with: the URL with its first ".obj",
   * matched case-sensitively, turned into ".mtl". The URL keeps its length.
   */
  function MtlUrl(url: string): (m: string)
    ensures |m| == |url|
    ensures !Contains(url, ObjSuffix) ==> m == url
    ensures Contains(url, ObjSuffix) ==>
              exists j :: IsFirstOccurrence(url, ObjSuffix, j) && m == url[..j] + MtlSuffix + url[j + |ObjSuffix|..]
  {
    ReplaceFirst(url, ObjSuffix, MtlSuffix)
  }

  /** An OBJ path whose stem does not contain ".obj" gets the MTL path with the same stem. */
  lemma MtlUrlOfObjPath(stem: string)
    requires !Contains(stem, ObjSuffix)
    ensures MtlUrl(stem + ObjSuffix) == stem + MtlSuffix
  {
    var s := stem + ObjSuffix;
    var n := |stem|;
    assert s[n..] == ObjSuffix;
    assert s[n..n + 4] == ObjSuffix;
    assert OccursAt(s, ObjSuffix, n);
    forall k | 0 <= k < n
      ensures !OccursAt(s, ObjSuffix, k)
    {
      if k + 4 <= n {
        assert s[k..k + 4] == stem[k..k + 4];
        assert !OccursAt(stem, ObjSuffix, k);
      } else {
        // the '.' at index n would have to match one of "obj"
        assert s[n] == '.';
        assert s[k..k + 4][n - k] == s[n];
        assert ObjSuffix[n - k] != '.';
      }
    }
    assert IsFirstOccurrence(s, ObjSuffix, n);
    var j :| IsFirstOccurrence(s, ObjSuffix, j) && MtlUrl(s) == s[..j] + MtlSuffix + s[j + 4..];
    assert IsFirstOccurrence(s, ObjSuffix, j);
    assert OccursAt(s, ObjSuffix, j);
    assert j == n;
    assert s[..n] == stem;
  }

  /** The MTL URL is derived case-sensitively: an upper-case ".OBJ" file keeps its own URL. */
  lemma MtlUrlIsCaseSensitive()
    ensures Extension("A.OBJ") == "obj"
    ensures MtlUrl("A.OBJ") == "A.OBJ"
  {
    var lower := ToLower("A.OBJ");
    assert lower == "a.obj";
    var k := LastPieceStart(lower, '.');
    assert lower[1] == '.';
    assert k == 2 by {
      LastPieceStartUnique(lower, '.', 2);
    }
    var u := "A.OBJ";
    assert u[0..4][0] != ObjSuffix[0];
    assert u[1..5][1] != ObjSuffix[1];
    assert IndexOfFrom(u, ObjSuffix, 2).None?;
    assert IndexOfFrom(u, ObjSuffix, 1).None?;
    assert IndexOf(u, ObjSuffix).None?;
  }

  /** The orientation fix for the two known models, or none. */
  function RotationFix(lower: string, format: Format): (fix: Option<Rotation>)
    ensures fix.Some? ==> format == Gltf || format == Obj
    ensures format == Gltf && fix.Some? ==> fix.value == Rotation(Pi / 6.0, Pi / 1.1)
    ensures format == Obj && fix.Some? ==> fix.value == Rotation(Pi / 8.0, Pi / 1.1)
    ensures format == Gltf && fix.Some? <==>
              format == Gltf && (Contains(lower, "bienenkasten.glb") || Contains(lower, "beehive"))
    ensures format == Obj && fix.Some? <==>
              format == Obj && (Contains(lower, "affe_lowpoly_tris.obj") || Contains(lower, "affe") || Contains(lower, "monkey"))
  {
    match format
    case Gltf =>
      if Contains(lower, "bienenkasten.glb") || Contains(lower, "beehive") then Some(Rotation(Pi / 6.0, Pi / 1.1)) else None
    case Obj =>
      if Contains(lower, "affe_lowpoly_tris.obj") || Contains(lower, "affe") || Contains(lower, "monkey")
      then Some(Rotation(Pi / 8.0, Pi / 1.1)) else None
    case _ => None
  }

  /** A rotation fix as data: the format it is for, the names that trigger it, and the rotation. */
  datatype FixRule = FixRule(format: Format, keys: seq<string>, rotation: Rotation)

  /** The two known models' corrections, as a table independent of `RotationFix`. */
  const FixRules: seq<FixRule> := [
    FixRule(Gltf, ["bienenkasten.glb", "beehive"], Rotation(Pi / 6.0, Pi / 1.1)),
    FixRule(Obj, ["affe_lowpoly_tris.obj", "affe", "monkey"], Rotation(Pi / 8.0, Pi / 1.1))
  ]

  /** Rule `r` is for `format` and one of its names occurs in the lower-cased URL. */
  predicate RuleApplies(r: FixRule, lower: string, format: Format) {
    r.format == format && exists k :: 0 <= k < |r.keys| && Contains(lower, r.keys[k])
  }

  /** `RotationFix` is exactly the table: a fix exists iff a rule applies, and it is that rule's rotation. */
  lemma {:induction false} RotationFixFollowsRules(lower: string, format: Format)
    ensures RotationFix(lower, format).Some? <==> exists i :: 0 <= i < |FixRules| && RuleApplies(FixRules[i], lower, format)
    ensures forall i :: 0 <= i < |FixRules| && RuleApplies(FixRules[i], lower, format) ==>
              RotationFix(lower, format) == Some(FixRules[i].rotation)
  {
    var g := FixRules[0];
    var o := FixRules[1];
    if RotationFix(lower, format).Some? {
      if format == Gltf {
        if Contains(lower, g.keys[0]) {
          assert RuleApplies(g, lower, format);
        } else {
          assert RuleApplies(g, lower, format) by {
            assert Contains(lower, g.keys[1]);
          }
        }
      } else {
        if Contains(lower, o.keys[0]) {
          assert RuleApplies(o, lower, format);
        } else if Contains(lower, o.keys[1]) {
          assert RuleApplies(o, lower, format);
        } else {
          assert RuleApplies(o, lower, format) by {
            assert Contains(lower, o.keys[2]);
          }
        }
      }
    }
  }

  /** A URL naming the long monkey file also contains "affe", so that name alone decides the OBJ fix. */
  lemma {:induction false} LongMonkeyNameIsRedundant(lower: string)
    requires Contains(lower, "affe_lowpoly_tris.obj")
    ensures Contains(lower, "affe")
    ensures RotationFix(lower, Obj) == Some(Rotation(Pi / 8.0, Pi / 1.1))
  {
    var k :| OccursAt(lower, "affe_lowpoly_tris.obj", k);
    assert lower[k..k + 4] == lower[k..k + 21][..4];
    assert OccursAt(lower, "affe", k);
  }

  /** The initial camera height for a capture: -1 for the third known capture, 0 otherwise. */
  function SplatCameraY(url: string): (y: real)
    ensures y == -1.0 <==> url == SplatPresets.Model3Url
    ensures y == 0.0 <==> url != SplatPresets.Model3Url
  {
    if url == SplatPresets.Model3Url then -1.0 else 0.0
  }

  /**
   * The dispatch on the lower-cased extension `ext` of a URL that is not a
   * capture: the normalised extension picks one loader, anything else fails
   * with `Unsupported format: <ext>`.
   */
  function Dispatch(url: string, ext: string): (r: Result<Plan, string>)
    ensures r.Success? <==> ext in FormatTable
    ensures r.Success? ==> r.value.MeshPlan? && r.value.loader.Format() == FormatTable[ext]
    ensures r.Success? && r.value.loader.ObjLoader? ==> r.value.loader.mtlUrl == MtlUrl(url)
    ensures r.Success? ==> r.value.fix == RotationFix(ToLower(url), r.value.loader.Format())
    ensures r.Failure? ==> r.error == "Unsupported format: " + ext
  {
    var lower := ToLower(url);
    var normalizedExt := NormalizeExtension(ext);
    if normalizedExt == "gltf" || normalizedExt == "glb" then
      Success(MeshPlan(GltfLoader, RotationFix(lower, Gltf)))
    else if normalizedExt == "fbx" then
      Success(MeshPlan(FbxLoader, None))
    else if normalizedExt == "obj" then
      Success(MeshPlan(ObjLoader(MtlUrl(url)), RotationFix(lower, Obj)))
    else if normalizedExt == "stl" then
      Success(MeshPlan(StlLoader, None))
    else if normalizedExt == "ply" then
      Success(MeshPlan(PlyLoader, None))
    else
      Failure("Unsupported format: " + ext)
  }

  /**
   * The classifying prefix of `loadAny(url)`: the capture test first, then
   * dispatch on the extension; an unknown extension fails before anything is
   * fetched.
   */
  function Classify(url: string): (r: Result<Plan, string>)
    ensures IsLumaCapture(url) ==> r == Success(SplatPlan(SplatCameraY(url)))
    ensures !IsLumaCapture(url) ==> (r.Success? <==> Extension(url) in FormatTable)
    ensures !IsLumaCapture(url) && Extension(url) in FormatTable ==>
              r.Success? && r.value.MeshPlan? && r.value.loader.Format() == FormatTable[Extension(url)]
    ensures r.Success? && r.value.MeshPlan? && r.value.loader.ObjLoader? ==>
              r.value.loader.mtlUrl == MtlUrl(url)
    ensures r.Success? && r.value.MeshPlan? ==>
              r.value.fix == RotationFix(ToLower(url), r.value.loader.Format())
    ensures r.Failure? ==> r.error == "Unsupported format: " + Extension(url)
  {
    if IsLumaCapture(url) then Success(SplatPlan(SplatCameraY(url)))
    else Dispatch(url, Extension(url))
  }

  /** A URL in which the capture pattern occurs, already in lower case, is a capture. */
  lemma {:induction false} PatternMakesCapture(url: string, k: int)
    requires OccursAt(url, CapturePattern, k)
    ensures IsLumaCapture(url)
  {
    var lower := ToLower(url);
    forall i | 0 <= i < |CapturePattern|
      ensures lower[k + i] == CapturePattern[i]
    {
      assert url[k + i] == url[k..k + |CapturePattern|][i];
    }
    assert lower[k..k + |CapturePattern|] == CapturePattern;
    assert OccursAt(lower, CapturePattern, k);
  }

  /** Every URL on the capture page's address is a capture. */
  lemma {:induction false} CapturePageUrlIsCapture(id: string)
    ensures IsLumaCapture(SplatPresets.CapturePage + id)
  {
    var url := SplatPresets.CapturePage + id;
    assert url[8..28] == SplatPresets.CapturePage[8..28];
    assert SplatPresets.CapturePage[8..28] == CapturePattern;
    PatternMakesCapture(url, 8);
  }

  /**
   * The three known captures take the splat path; only the third starts with
   * the camera lowered to -1.
   */
  lemma KnownCaptureCameraHeights()
    ensures Classify(SplatPresets.Model1Url) == Success(SplatPlan(0.0))
    ensures Classify(SplatPresets.Model2Url) == Success(SplatPlan(0.0))
    ensures Classify(SplatPresets.Model3Url) == Success(SplatPlan(-1.0))
  {
    CapturePageUrlIsCapture("afeec738-2a49-42bd-bd0b-fde2fd215d20");
    CapturePageUrlIsCapture("8bb65c41-db69-4096-ad66-413283039e3b");
    CapturePageUrlIsCapture("bbd433e8-9cad-4546-8be1-3f13d99f9584");
    assert SplatPresets.Model1Url[28] != SplatPresets.Model3Url[28];
    assert SplatPresets.Model2Url[28] != SplatPresets.Model3Url[28];
  }

  /** A capture URL takes the splat path whatever extension it ends in. */
  lemma {:induction false} CaptureWinsOverExtension(url: string, suffix: string)
    requires IsLumaCapture(url)
    ensures Classify(url + suffix).Success? && Classify(url + suffix).value.SplatPlan?
  {
    CaptureTestSurvivesContext("", url, suffix);
    assert "" + url + suffix == url + suffix;
  }
}

=== FILE: real_math.dfy ===
/** Real-valued helpers shared by the interaction model (reals stand in for JavaScript doubles). */
module RealMath {

  /** `Math.PI`, the double nearest to pi, written as a real. */
  const Pi: real := 3.141592653589793

  /** `Math.abs`. */
  function Abs(x: real): (a: real)
    ensures a >= 0.0
    ensures a == x || a == -x
  {
    if x < 0.0 then -x else x
  }

  /** `v` lies on the closed segment between `a` and `b`, whichever is larger. */
  predicate Between(a: real, b: real, v: real) {
    (a <= v <= b) || (b <= v <= a)
  }

  /** `v` limited to the range from `lo` to `hi`, the way the viewer clamps with `Math.max` over `Math.min`. */
  function Clamp(lo: real, hi: real, v: real): (r: real)
    requires lo <= hi
    ensures lo <= r <= hi
    ensures lo <= v <= hi ==> r == v
    ensures v < lo ==> r == lo
    ensures v > hi ==> r == hi
  {
    if hi < v then (if lo < hi then hi else lo)
    else if lo < v then v
    else lo
  }
}

=== FILE: splat_presets.dfy ===
/**
 * The splat background preset machine: a two-entry preset table cycled by the
 * background-toggle button, the renderer clear colour and button label each
 * preset implies, the splat semantics mask and shader hook chosen for the
 * current capture, and the CSS classes put on the link container.
 */
module SplatPresets {
  import opened Wrappers

  /** Categories of splat points a semantics mask can select. */
  datatype Semantic = Foreground | Background

  /** One row of the preset table: mask, clear colour (`None` is JavaScript's `null`), button text. */
  datatype Preset = Preset(mask: set<Semantic>, bg: Option<nat>, text: string)

  const Black: nat := 0x000000

  /** Preset 0 shows everything over opaque black; preset 1 shows the foreground over a transparent clear. */
  const Presets: seq<Preset> := [
    Preset({Foreground, Background}, Some(Black), "Remove background"),
    Preset({Foreground}, None, "Background")
  ]

  /** The index the viewer starts with: the foreground-only preset. */
  const InitialIndex: nat := 1

  /** The address every Luma capture page starts with. */
  const CapturePage: string := "https://lumalabs.ai/capture/"

  /** The three captures that get special treatment. */
  const Model1Url: string := CapturePage + "afeec738-2a49-42bd-bd0b-fde2fd215d20"
  const Model2Url: string := CapturePage + "8bb65c41-db69-4096-ad66-413283039e3b"
  const Model3Url: string := CapturePage + "bbd433e8-9cad-4546-8be1-3f13d99f9584"

  /** Heights above which the two cut hooks hide splats. */
  const Model1Cut: real := 0.3
  const Model2Cut: real := 0.8

  predicate ValidIndex(i: int) {
    0 <= i < |Presets|
  }

  /** The background-toggle handler's index update: the next preset, wrapping around after the last. */
  function Toggle(i: nat): (j: nat)
    requires ValidIndex(i)
    ensures ValidIndex(j)
    ensures j != i
    ensures (j + 1) % |Presets| == i
  {
    (i + 1) % |Presets|
  }

  /** A renderer clear colour with its alpha. */
  datatype ClearColor = ClearColor(color: nat, alpha: nat)

  /** The renderer clear colour for a preset: its colour, opaque, or transparent black when it has none. */
  function ClearColorOf(p: Preset): (c: ClearColor)
    ensures c.alpha == 1 <==> p.bg.Some?
    ensures c.alpha == 0 <==> p.bg.None?
    ensures p.bg.Some? ==> c.color == p.bg.value
    ensures p.bg.None? ==> c.color == Black
  {
    ClearColor(if p.bg.None? then Black else p.bg.value, if p.bg.Some? then 1 else 0)
  }

  /** The vertex shader hook installed on a splat: hide points above a height, or hide nothing. */
  datatype ShaderHook = CutAbove(height: real) | PassThrough

  /** Which hook a capture gets, given whether the preset's background colour is set. */
  function HookFor(url: string, bgOn: bool): (h: ShaderHook)
    ensures h == CutAbove(Model1Cut) <==> url == Model1Url && !bgOn
    ensures h == CutAbove(Model2Cut) <==> url == Model2Url && bgOn
    ensures h == PassThrough <==> !(url == Model1Url && !bgOn) && !(url == Model2Url && bgOn)
  {
    if url == Model1Url && !bgOn then CutAbove(Model1Cut)
    else if url == Model2Url && bgOn then CutAbove(Model2Cut)
    else PassThrough
  }

  /** The third known capture gets no cut, whatever the background. */
  lemma Model3NeverCut(bgOn: bool)
    ensures HookFor(Model3Url, bgOn) == PassThrough
  {
    assert Model3Url[28] != Model1Url[28];
    assert Model3Url[28] != Model2Url[28];
  }

  /** What the splat object receives: its semantics mask and its shader hook. */
  datatype SplatUpdate = SplatUpdate(mask: set<Semantic>, hook: ShaderHook)

  /** Everything `applyStateForCurrent` decides. */
  datatype Applied = Applied(clear: ClearColor, text: string, splat: Option<SplatUpdate>)

  /**
   * `applyStateForCurrent(url)` for preset `i`: clear colour and label always,
   * mask and hook only when the current object is a splat.
   */
  function ApplyState(i: nat, isSplat: bool, hasObject: bool, url: string): (a: Applied)
    requires ValidIndex(i)
    ensures a.clear == ClearColorOf(Presets[i])
    ensures a.clear.alpha == 1 <==> i == 0
    ensures a.text == Presets[i].text
    ensures a.splat.None? <==> !isSplat || !hasObject
    ensures a.splat.Some? ==> a.splat.value.mask == Presets[i].mask
    ensures a.splat.Some? && a.splat.value.hook == CutAbove(Model1Cut) <==>
              isSplat && hasObject && url == Model1Url && i == 1
    ensures a.splat.Some? && a.splat.value.hook == CutAbove(Model2Cut) <==>
              isSplat && hasObject && url == Model2Url && i == 0
    ensures a.splat.Some? && url != Model1Url && url != Model2Url ==> a.splat.value.hook == PassThrough
    ensures a.splat.Some? ==> a.splat.value.hook == HookFor(url, i == 0)
  {
    var p := Presets[i];
    var clear := ClearColorOf(p);
    if !isSplat || !hasObject then
      Applied(clear, p.text, None)
    else
      Applied(clear, p.text, Some(SplatUpdate(p.mask, HookFor(url, p.bg.Some?))))
  }

  /** The classes `updateLinkColors` leaves on the link container. */
  datatype LinkClasses = LinkClasses(bgOn: bool, fullscreenBgOn: bool)

  /** `bg-on` iff the preset has no clear colour; `fullscreen-bg-on` iff additionally fullscreen. */
  function LinkClassesFor(i: nat, fullscreen: bool): (l: LinkClasses)
    requires ValidIndex(i)
    ensures l.bgOn <==> i == 1
    ensures l.fullscreenBgOn <==> fullscreen && i == 1
  {
    var bgIsShown := Presets[i].bg.None?;
    LinkClasses(bgIsShown, fullscreen && bgIsShown)
  }

  /**
   * The link container's `bg-on` is the opposite of the `bgOn` that picks the
   * shader hook: one means "page background visible", the other "splat
   * background points visible". So the hook a splat gets is the one for the
   * negation of the link container's class.
   */
  lemma LinkBgOnIsOppositeOfHookBgOn(i: nat, fullscreen: bool, url: string)
    requires ValidIndex(i)
    ensures ApplyState(i, true, true, url).splat.Some?
    ensures ApplyState(i, true, true, url).splat.value.hook == HookFor(url, !LinkClassesFor(i, fullscreen).bgOn)
  {
  }

  /**
   * Each of the two cut captures is cut under exactly one of the two presets,
   * the other one of the pair leaves it whole: the first capture under the
   * preset that hides background points, the second under the one that shows
   * them. Every other capture is never cut.
   */
  lemma {:induction false} CutUnderExactlyOnePreset(i: nat, url: string)
    requires ValidIndex(i)
    ensures url == Model1Url || url == Model2Url ==>
              (HookFor(url, Presets[i].bg.Some?).CutAbove? <==> !HookFor(url, Presets[Toggle(i)].bg.Some?).CutAbove?)
    ensures url == Model1Url ==> (HookFor(url, Presets[i].bg.Some?).CutAbove? <==> Background !in Presets[i].mask)
    ensures url == Model2Url ==> (HookFor(url, Presets[i].bg.Some?).CutAbove? <==> Background in Presets[i].mask)
    ensures url != Model1Url && url != Model2Url ==>
              HookFor(url, Presets[i].bg.Some?) == PassThrough && HookFor(url, Presets[Toggle(i)].bg.Some?) == PassThrough
  {
    assert Model1Url[28] != Model2Url[28];
    assert Presets[0].bg.Some? && Presets[1].bg.None?;
    assert Background in Presets[0].mask && Background !in Presets[1].mask;
  }

  /** The starting preset is the foreground-only one; once applied it gives `bg-on` set, a transparent clear, and a button offering the background. */
  lemma InitialPresetShowsPageBackground()
    ensures ValidIndex(InitialIndex)
    ensures LinkClassesFor(InitialIndex, false) == LinkClasses(true, false)
    ensures ClearColorOf(Presets[InitialIndex]).alpha == 0
    ensures Presets[InitialIndex].text == "Background"
  {
  }

  /** The viewer-wide preset state and the current object as the toggle handler sees it. */
  datatype View = View(index: nat, isSplat: bool, hasObject: bool, source: string, fullscreen: bool)

  /** What one click of the background toggle produces. */
  datatype ToggleOutcome = ToggleOutcome(view: View, applied: Applied, links: LinkClasses)

  /** The URL the toggle handler passes on: the splat's source, or "" for anything else. */
  function ToggleUrl(v: View): (u: string)
    ensures !v.isSplat ==> u == ""
    ensures v.isSplat ==> u == v.source
  {
    if v.isSplat then v.source else ""
  }

  /** The background-toggle click handler. */
  function OnToggleClick(v: View): (o: ToggleOutcome)
    requires ValidIndex(v.index)
    ensures ValidIndex(o.view.index) && o.view.index != v.index
    ensures o.view == v.(index := o.view.index)
    ensures o.applied.clear.alpha != ClearColorOf(Presets[v.index]).alpha
    ensures o.links.bgOn != LinkClassesFor(v.index, v.fullscreen).bgOn
    ensures o.applied.text == Presets[o.view.index].text
    ensures o.applied.clear == ClearColorOf(Presets[o.view.index])
    ensures o.applied.splat.Some? <==> v.isSplat && v.hasObject
    ensures o.applied.splat.Some? ==>
              o.applied.splat.value == SplatUpdate(Presets[o.view.index].mask, HookFor(v.source, o.view.index == 0))
    ensures o.links.fullscreenBgOn <==> v.fullscreen && o.links.bgOn
  {
    var j := Toggle(v.index);
    var v' := v.(index := j);
    ToggleOutcome(v', ApplyState(j, v.isSplat, v.hasObject, ToggleUrl(v)), LinkClassesFor(j, v.fullscreen))
  }

  /** Two clicks of the toggle restore the preset, clear colour, label, splat update and link classes. */
  lemma {:induction false} ToggleTwiceRestores(v: View)
    requires ValidIndex(v.index)
    ensures OnToggleClick(OnToggleClick(v).view).view == v
    ensures OnToggleClick(OnToggleClick(v).view).applied == ApplyState(v.index, v.isSplat, v.hasObject, ToggleUrl(v))
    ensures OnToggleClick(OnToggleClick(v).view).links == LinkClassesFor(v.index, v.fullscreen)
  {
    var once := OnToggleClick(v).view;
    assert Toggle(once.index) == v.index;
  }
}

=== FILE: text.dfy ===
/**
 * The handful of JavaScript string operations the viewer's decisions rest on:
 * `toLowerCase` (ASCII letters only), `includes`, `replace` with a string
 * pattern (first occurrence only), and `split` on one character followed by
 * taking the last piece.
 */
module Text {
  import opened Wrappers

  predicate IsUpper(c: char) {
    'A' <= c <= 'Z'
  }

  /** Lower-cases an ASCII capital; every other character is left alone. */
  function LowerChar(c: char): (d: char)
    ensures !IsUpper(d)
    ensures IsUpper(c) ==> d as int == c as int + 32
    ensures !IsUpper(c) ==> d == c
  {
    if IsUpper(c) then (c as int + 32) as char else c
  }

  /** `s.toLowerCase()` restricted to ASCII letters. */
  function ToLower(s: string): (r: string)
    ensures |r| == |s|
    ensures forall i :: 0 <= i < |s| ==> r[i] == LowerChar(s[i])
  {
    seq(|s|, i requires 0 <= i < |s| => LowerChar(s[i]))
  }

  /** Lower-casing twice is lower-casing once. */
  lemma ToLowerIdempotent(s: string)
    ensures ToLower(ToLower(s)) == ToLower(s)
  {
    var t := ToLower(s);
    assert forall i :: 0 <= i < |t| ==> LowerChar(t[i]) == t[i];
  }

  /** `p` sits in `s` starting at index `j`. */
  predicate OccursAt(s: string, p: string, j: int) {
    0 <= j && j + |p| <= |s| && s[j..j + |p|] == p
  }

  /** `j` is the leftmost place at which `p` sits in `s`. */
  predicate IsFirstOccurrence(s: string, p: string, j: int) {
    OccursAt(s, p, j) && forall k :: 0 <= k < j ==> !OccursAt(s, p, k)
  }

  /** Leftmost occurrence of `p` in `s` at or after index `from`. */
  function IndexOfFrom(s: string, p: string, from: nat): (r: Option<nat>)
    ensures r.Some? ==> from <= r.value && OccursAt(s, p, r.value)
    ensures r.Some? ==> forall k :: from <= k < r.value ==> !OccursAt(s, p, k)
    ensures r.None? ==> forall k :: from <= k ==> !OccursAt(s, p, k)
    decreases |s| - from
  {
    if from + |p| > |s| then None
    else if s[from..from + |p|] == p then Some(from)
    else IndexOfFrom(s, p, from + 1)
  }

  /** `s.indexOf(p)`, with `None` for JavaScript's -1. */
  function IndexOf(s: string, p: string): (r: Option<nat>)
    ensures r.Some? ==> IsFirstOccurrence(s, p, r.value)
    ensures r.None? <==> forall k :: !OccursAt(s, p, k)
  {
    IndexOfFrom(s, p, 0)
  }

  /** `s.includes(p)`. */
  function Contains(s: string, p: string): (b: bool)
    ensures b <==> exists k :: OccursAt(s, p, k)
  {
    IndexOf(s, p).Some?
  }

  /** An occurrence inside `s` is still one after text is added on either side. */
  lemma ContainsInContext(pre: string, s: string, post: string, p: string)
    requires Contains(s, p)
    ensures Contains(pre + s + post, p)
  {
    var k :| OccursAt(s, p, k);
    var t := pre + s + post;
    assert t[|pre| + k..|pre| + k + |p|] == s[k..k + |p|];
    assert OccursAt(t, p, |pre| + k);
  }

  /** `s.replace(p, q)` for a string pattern: only the first occurrence is replaced. */
  function ReplaceFirst(s: string, p: string, q: string): (r: string)
    ensures !Contains(s, p) ==> r == s
    ensures Contains(s, p) ==>
      exists j :: IsFirstOccurrence(s, p, j) && r == s[..j] + q + s[j + |p|..]
  {
    match IndexOf(s, p)
    case None => s
    case Some(j) => s[..j] + q + s[j + |p|..]
  }

  /** Index of the first `c` in `s`. */
  function IndexOfChar(s: string, c: char): (r: Option<nat>)
    ensures r.None? <==> c !in s
    ensures r.Some? ==> r.value < |s| && s[r.value] == c && c !in s[..r.value]
  {
    if |s| == 0 then None
    else if s[0] == c then Some(0)
    else
      match IndexOfChar(s[1..], c)
      case None => None
      case Some(i) =>
        assert s[1..][..i] == s[1..i + 1];
        Some(i + 1)
  }

  /** Index of the last `c` in `s`. */
  function LastIndexOf(s: string, c: char): (r: Option<nat>)
    ensures r.None? <==> c !in s
    ensures r.Some? ==> r.value < |s| && s[r.value] == c && c !in s[r.value + 1..]
  {
    if |s| == 0 then None
    else if s[|s| - 1] == c then Some(|s| - 1)
    else
      var r := LastIndexOf(s[..|s| - 1], c);
      assert r.Some? ==> s[r.value + 1..] == s[..|s| - 1][r.value + 1..] + [s[|s| - 1]];
      r
  }

  /** Where the text after the last `c` of `s` begins: just past that `c`, or 0. */
  function LastPieceStart(s: string, c: char): (k: nat)
    ensures k <= |s|
    ensures c !in s[k..]
    ensures k == 0 || s[k - 1] == c
  {
    match LastIndexOf(s, c)
    case None => 0
    case Some(i) => i + 1
  }

  /** The three properties of `LastPieceStart` pin it down. */
  lemma LastPieceStartUnique(s: string, c: char, k: nat)
    requires k <= |s| && c !in s[k..]
    requires k == 0 || s[k - 1] == c
    ensures k == LastPieceStart(s, c)
  {
  }

  /** Cutting `s` just after any `c` does not move the start of its last piece. */
  lemma LastPieceStartOfTail(s: string, c: char, i: nat)
    requires i < |s| && s[i] == c
    ensures i + 1 + LastPieceStart(s[i + 1..], c) == LastPieceStart(s, c)
  {
    var t := s[i + 1..];
    var k := LastPieceStart(t, c);
    assert t[k..] == s[i + 1 + k..];
    assert k == 0 || s[i + k] == c;
    LastPieceStartUnique(s, c, i + 1 + k);
  }

  /**
   * The text after the last `c` of `s`, or all of `s` when `c` does not occur:
   * the longest suffix of `s` free of `c`.
   */
  function AfterLast(s: string, c: char): (r: string)
    ensures c !in r
    ensures |r| <= |s|
  {
    s[LastPieceStart(s, c)..]
  }

  /**
   * The text after the last `c` of a lower-cased string is a lower-case
   * suffix of it, preceded in the original string by `c` itself unless it
   * is the whole string (`c` is not a letter, so only `c` lower-cases to `c`).
   */
  lemma AfterLastOfLower(s: string, c: char)
    requires !IsUpper(c) && !('a' <= c <= 'z')
    ensures var r := AfterLast(ToLower(s), c); r == ToLower(s)[|s| - |r|..]
    ensures var r := AfterLast(ToLower(s), c); |r| == |s| || s[|s| - |r| - 1] == c
    ensures var r := AfterLast(ToLower(s), c); forall i :: 0 <= i < |r| ==> !IsUpper(r[i])
  {
    var lower := ToLower(s);
    var k := LastPieceStart(lower, c);
    if k > 0 {
      assert LowerChar(s[k - 1]) == c;
    }
  }

  /**
   * `s.split(c)`: the pieces between the occurrences of `c`. Its last piece,
   * what `pop` returns, is the text after the last `c`.
   */
  function Split(s: string, c: char): (parts: seq<string>)
    ensures |parts| >= 1
    ensures forall k :: 0 <= k < |parts| ==> c !in parts[k]
    ensures parts[|parts| - 1] == AfterLast(s, c)
    decreases |s|
  {
    match IndexOfChar(s, c)
    case None =>
      assert LastIndexOf(s, c).None?;
      [s]
    case Some(i) =>
      LastPieceStartOfTail(s, c, i);
      assert s[i + 1..][LastPieceStart(s[i + 1..], c)..] == s[LastPieceStart(s, c)..];
      [s[..i]] + Split(s[i + 1..], c)
  }
}

=== FILE: thumbstick.dfy ===
/**
 * `getThumbstickY`: the vertical thumbstick value the viewer reads each XR
 * frame from every input source's gamepad, with a 0.15 deadzone.
 */
module Thumbstick {
  import opened Wrappers
  import opened RealMath

  /** Stick values at or below this magnitude are ignored. */
  const Deadzone: real := 0.15

  /** An XR input source; `axes` is `None` when it has no gamepad or the gamepad has no axes. */
  datatype InputSource = InputSource(axes: Option<seq<real>>)

  /**
   * The vertical stick values a source offers: `axes[1]` (left stick), then
   * `axes[3]` (right stick) when there are at least four axes. A source with
   * fewer than two axes offers none and is skipped.
   */
  function Candidates(src: InputSource): (cs: seq<real>)
    ensures src.axes.None? || |src.axes.value| < 2 ==> cs == []
    ensures src.axes.Some? && |src.axes.value| >= 2 ==> src.axes.value[1] in cs
    ensures src.axes.Some? && |src.axes.value| >= 4 ==> src.axes.value[3] in cs
    ensures forall c :: c in cs ==>
              src.axes.Some? && (c == src.axes.value[1] || (|src.axes.value| >= 4 && c == src.axes.value[3]))
    ensures |cs| <= 2
    ensures |cs| > 0 ==> src.axes.Some? && |src.axes.value| >= 2 && cs[0] == src.axes.value[1]
  {
    if src.axes.None? || |src.axes.value| < 2 then []
    else
      var a := src.axes.value;
      [a[1]] + (if |a| >= 4 then [a[3]] else [])
  }

  /** Candidate `j` is larger in magnitude than every candidate before it. */
  predicate BeatsEarlier(cs: seq<real>, j: int) {
    0 <= j < |cs| && forall k :: 0 <= k < j ==> Abs(cs[k]) < Abs(cs[j])
  }

  /** One step of the `reduce`: `v` replaces `best` only when strictly larger in magnitude. */
  function Stronger(best: real, v: real): real {
    if Abs(v) > Abs(best) then v else best
  }

  /**
   * The `reduce` over a source's candidates, starting from 0: 0 or a
   * candidate, and no candidate is larger in magnitude.
   */
  function Strongest(cs: seq<real>): (y: real)
    ensures y == 0.0 || y in cs
    ensures forall c :: c in cs ==> Abs(c) <= Abs(y)
  {
    if |cs| == 0 then 0.0
    else
      var init := cs[..|cs| - 1];
      assert cs == init + [cs[|cs| - 1]];
      Stronger(Strongest(init), cs[|cs| - 1])
  }

  /**
   * On a tie in magnitude the `reduce` keeps the earliest candidate: a nonzero
   * result is a candidate larger in magnitude than every candidate before it.
   */
  lemma {:induction false} StrongestPicksFirst(cs: seq<real>)
    ensures Strongest(cs) != 0.0 ==> exists j :: BeatsEarlier(cs, j) && cs[j] == Strongest(cs)
  {
    if |cs| > 0 {
      var n := |cs| - 1;
      var init := cs[..n];
      assert cs == init + [cs[n]];
      StrongestPicksFirst(init);
      var best := Strongest(init);
      if Abs(cs[n]) > Abs(best) {
        forall k | 0 <= k < n
          ensures Abs(cs[k]) < Abs(cs[n])
        {
          assert cs[k] in init;
        }
        assert BeatsEarlier(cs, n);
      } else if best != 0.0 {
        var j :| BeatsEarlier(init, j) && init[j] == best;
        assert BeatsEarlier(cs, j);
      }
    }
  }

  /** `v` is larger in magnitude than both the running value `y` and the deadzone. */
  predicate Beats(v: real, y: real) {
    Abs(v) > Abs(y) && Abs(v) > Deadzone
  }

  /**
   * The loop body for one source: its strongest value replaces `y` exactly when
   * it beats both `y` and the deadzone, so `y` never shrinks in magnitude.
   */
  function Pick(y: real, src: InputSource): (r: real)
    ensures r == y || (r == Strongest(Candidates(src)) && Abs(r) > Abs(y) && Abs(r) > Deadzone)
    ensures Beats(Strongest(Candidates(src)), y) ==> r == Strongest(Candidates(src))
    ensures Abs(r) >= Abs(y)
  {
    var cs := Candidates(src);
    if |cs| == 0 then y
    else
      var local := Strongest(cs);
      if Abs(local) > Abs(y) && Abs(local) > Deadzone then local else y
  }

  /** The loop over the session's input sources, as a fold from the left starting at 0. */
  function StickY(srcs: seq<InputSource>): (y: real)
    ensures y == 0.0 || Abs(y) > Deadzone
  {
    if |srcs| == 0 then 0.0 else Pick(StickY(srcs[..|srcs| - 1]), srcs[|srcs| - 1])
  }

  /** `getThumbstickY()`: 0 when there is no session, else 0 or a value beyond the deadzone. */
  function ThumbstickY(session: Option<seq<InputSource>>): (y: real)
    ensures session.None? ==> y == 0.0
    ensures y == 0.0 || Abs(y) > Deadzone
  {
    match session
    case None => 0.0
    case Some(srcs) => StickY(srcs)
  }

  /** Some source offers `c`. */
  predicate Offered(srcs: seq<InputSource>, c: real) {
    exists i :: 0 <= i < |srcs| && c in Candidates(srcs[i])
  }

  /**
   * Source `i` supplied the stick value `y`: `y` is that source's strongest
   * value, and every candidate of every earlier source is smaller in magnitude.
   */
  predicate SuppliedBy(srcs: seq<InputSource>, i: int, y: real) {
    && 0 <= i < |srcs|
    && Strongest(Candidates(srcs[i])) == y
    && forall j, c :: 0 <= j < i && c in Candidates(srcs[j]) ==> Abs(c) < Abs(y)
  }

  /** A nonzero stick value is a value some source offered. */
  lemma {:induction false} StickYOffered(srcs: seq<InputSource>)
    ensures StickY(srcs) != 0.0 ==> Offered(srcs, StickY(srcs))
  {
    if |srcs| > 0 && StickY(srcs) != 0.0 {
      var n := |srcs| - 1;
      var init := srcs[..n];
      StickYOffered(init);
      var y0 := StickY(init);
      var y := StickY(srcs);
      var i: int;
      if y == y0 {
        i :| 0 <= i < n && y0 in Candidates(init[i]);
        assert init[i] == srcs[i];
      } else {
        i := n;
      }
      assert y in Candidates(srcs[i]);
    }
  }

  /** No offered value beyond the deadzone is larger in magnitude than the stick value. */
  lemma {:induction false} StickYDominates(srcs: seq<InputSource>)
    ensures forall i, c :: 0 <= i < |srcs| && c in Candidates(srcs[i]) && Abs(c) > Deadzone ==>
              Abs(c) <= Abs(StickY(srcs))
  {
    if |srcs| > 0 {
      var n := |srcs| - 1;
      var init := srcs[..n];
      StickYDominates(init);
      var y := StickY(srcs);
      assert Abs(y) >= Abs(StickY(init));
      forall i, c | 0 <= i < |srcs| && c in Candidates(srcs[i]) && Abs(c) > Deadzone
        ensures Abs(c) <= Abs(y)
      {
        if i < n {
          assert init[i] == srcs[i];
          assert c in Candidates(init[i]);
        } else {
          assert Abs(c) <= Abs(Strongest(Candidates(srcs[n])));
        }
      }
    }
  }

  /**
   * The stick value is 0 or beyond the deadzone; it is a value some source
   * offered; no offered value beyond the deadzone is larger in magnitude; and
   * it is 0 exactly when every offered value is inside the deadzone.
   */
  lemma StickYSpec(srcs: seq<InputSource>)
    ensures StickY(srcs) == 0.0 || Abs(StickY(srcs)) > Deadzone
    ensures StickY(srcs) != 0.0 ==> Offered(srcs, StickY(srcs))
    ensures forall i, c :: 0 <= i < |srcs| && c in Candidates(srcs[i]) && Abs(c) > Deadzone ==>
              Abs(c) <= Abs(StickY(srcs))
    ensures StickY(srcs) == 0.0 <==>
              forall i, c :: 0 <= i < |srcs| && c in Candidates(srcs[i]) ==> Abs(c) <= Deadzone
  {
    StickYOffered(srcs);
    StickYDominates(srcs);
  }

  /** The `reduce` over one source's candidates, as a loop. */
  method ReduceStrongest(cs: seq<real>) returns (y: real)
    ensures y == Strongest(cs)
    ensures y == 0.0 || y in cs
    ensures forall c :: c in cs ==> Abs(c) <= Abs(y)
  {
    y := 0.0;
    var k := 0;
    while k < |cs|
      invariant 0 <= k <= |cs|
      invariant y == Strongest(cs[..k])
    {
      assert cs[..k + 1][..k] == cs[..k];
      y := Stronger(y, cs[k]);
      k := k + 1;
    }
    assert cs[..k] == cs;
  }

  /**
   * On a tie in magnitude the earliest source wins: a nonzero stick value is
   * the strongest value of a source before which no source offered anything
   * as large.
   */
  lemma {:induction false} FirstSourceWins(srcs: seq<InputSource>)
    ensures StickY(srcs) != 0.0 ==> exists i :: SuppliedBy(srcs, i, StickY(srcs))
  {
    if |srcs| > 0 {
      var init := srcs[..|srcs| - 1];
      FirstSourceWins(init);
      var y := StickY(srcs);
      if y != 0.0 {
        if y == StickY(init) {
          var i :| SuppliedBy(init, i, y);
          SuppliedByLonger(srcs, i, y);
        } else {
          LastSourceSupplies(srcs);
        }
      }
    }
  }

  /** A source that supplied a value still does when more sources follow. */
  lemma SuppliedByLonger(srcs: seq<InputSource>, i: int, y: real)
    requires |srcs| > 0 && SuppliedBy(srcs[..|srcs| - 1], i, y)
    ensures SuppliedBy(srcs, i, y)
  {
    var init := srcs[..|srcs| - 1];
    assert forall j :: 0 <= j < |init| ==> init[j] == srcs[j];
  }

  /** When the last source changes the value, it supplied it. */
  lemma LastSourceSupplies(srcs: seq<InputSource>)
    requires |srcs| > 0
    requires StickY(srcs) != StickY(srcs[..|srcs| - 1])
    ensures SuppliedBy(srcs, |srcs| - 1, StickY(srcs))
  {
    var n := |srcs| - 1;
    var init := srcs[..n];
    StickYSpec(init);
    var y := StickY(srcs);
    forall j, c | 0 <= j < n && c in Candidates(srcs[j])
      ensures Abs(c) < Abs(y)
    {
      assert init[j] == srcs[j];
      assert c in Candidates(init[j]);
    }
  }

  /** `getThumbstickY` as the loop the source writes. */
  method ReadThumbstickY(session: Option<seq<InputSource>>) returns (y: real)
    ensures y == ThumbstickY(session)
    ensures session.None? ==> y == 0.0
    ensures y == 0.0 || Abs(y) > Deadzone
    ensures session.Some? && y != 0.0 ==> Offered(session.value, y)
    ensures session.Some? ==>
              forall i, c :: 0 <= i < |session.value| && c in Candidates(session.value[i]) && Abs(c) > Deadzone ==>
                Abs(c) <= Abs(y)
    ensures session.Some? && y != 0.0 ==> exists i :: SuppliedBy(session.value, i, y)
  {
    if session.None? {
      return 0.0;
    }
    var srcs := session.value;
    y := 0.0;
    var i := 0;
    while i < |srcs|
      invariant 0 <= i <= |srcs|
      invariant y == StickY(srcs[..i])
    {
      var cs := Candidates(srcs[i]);
      if |cs| > 0 {
        var localY := ReduceStrongest(cs);
        if Abs(localY) > Abs(y) && Abs(localY) > Deadzone {
          y := localY;
        }
      }
      assert srcs[..i + 1][..i] == srcs[..i];
      i := i + 1;
    }
    assert srcs[..i] == srcs;
    StickYSpec(srcs);
    FirstSourceWins(srcs);
  }
}

=== FILE: vr_interaction.dfy ===
/**
 * The VR interaction state machine: controller grab begin/end, controller
 * motion turned into yaw/pitch targets (pitch clamped to ±0.49π), the
 * thumbstick-driven distance target clamped to [0.3, 3.5], exponential
 * smoothing of angles and distance toward their targets, the reset done by
 * placement, and the session start/end handlers. Head pose, trigonometry and
 * object transforms are not modelled; the headset heading at placement is a
 * parameter.
 */
module VrInteraction {
  import opened Wrappers
  import opened RealMath
  import Thumbstick

  /** Radians of yaw/pitch target per metre of controller motion. */
  const RotSens: real := 1.6
  /** Largest pitch target magnitude, about 88 degrees. */
  const MaxPitch: real := Pi * 0.49
  /** Share of the remaining gap closed per frame, for angles and for distance. */
  const Smooth: real := 0.18
  /** Share of the gap left after one smoothing step. */
  const Retain: real := 1.0 - Smooth
  const MinDist: real := 0.3
  const MaxDist: real := 3.5
  /** Metres of distance target per unit of stick value per frame. */
  const StickDistSens: real := 0.025
  /** Distance used by every placement in the viewer. */
  const PlacementDistance: real := 1.0

  datatype Vec3 = Vec3(x: real, y: real, z: real)

  /** The two XR controllers. */
  datatype Controller = Controller0 | Controller1

  /** Where each controller is in the current frame. */
  datatype Poses = Poses(p0: Vec3, p1: Vec3) {
    function Of(c: Controller): Vec3 {
      match c
      case Controller0 => p0
      case Controller1 => p1
    }
  }

  /** `ctrlState`: whether a grab is active, the last sampled position, and the grabbing controller. */
  datatype Grab = Grab(active: bool, lastPos: Vec3, controller: Option<Controller>)

  /** A grab is active exactly when it knows its controller. */
  predicate Consistent(g: Grab) {
    g.active <==> g.controller.Some?
  }

  /** All interaction state the viewer keeps as module-level variables. */
  datatype VrState = VrState(
    inXR: bool,
    hasObject: bool,
    grab: Grab,
    yawTarget: real,
    pitchTarget: real,
    yaw: real,
    pitch: real,
    distanceTarget: real,
    distance: real,
    entryYaw: real)

  /** The state at page load. */
  const Init: VrState := VrState(false, false, Grab(false, Vec3(0.0, 0.0, 0.0), None),
                                 0.0, 0.0, 0.0, 0.0, 1.0, 1.0, 0.0)

  predicate PitchInRange(p: real) {
    -MaxPitch <= p <= MaxPitch
  }

  predicate DistanceInRange(d: real) {
    MinDist <= d <= MaxDist
  }

  /** What the viewer keeps true at all times: a consistent grab, and pitch and distance, targets and smoothed values, in range. */
  predicate Inv(s: VrState) {
    && Consistent(s.grab)
    && PitchInRange(s.pitchTarget) && PitchInRange(s.pitch)
    && DistanceInRange(s.distanceTarget) && DistanceInRange(s.distance)
  }

  /** `beginRotateWithController(ctrl)` (select or squeeze start). */
  function BeginRotate(s: VrState, c: Controller, poses: Poses): (r: VrState)
    ensures r.grab.active && r.grab.controller == Some(c) && r.grab.lastPos == poses.Of(c)
    ensures Consistent(r.grab)
    ensures r == s.(grab := r.grab)
    ensures Inv(s) ==> Inv(r)
  {
    s.(grab := Grab(true, poses.Of(c), Some(c)))
  }

  /** `endRotateWithController()` (select or squeeze end): the last position is kept. */
  function EndRotate(s: VrState): (r: VrState)
    ensures !r.grab.active && r.grab.controller.None?
    ensures Consistent(r.grab)
    ensures r == s.(grab := s.grab.(active := false, controller := None))
    ensures Inv(s) ==> Inv(r)
  {
    s.(grab := s.grab.(active := false, controller := None))
  }

  /** Pitch target before clamping, after a controller moved by `dy` vertically. */
  function RawPitch(pitchTarget: real, dy: real): real {
    pitchTarget - dy * RotSens
  }

  /**
   * `updateControllerRotation()`: a no-op unless in XR, grabbing and showing
   * an object; otherwise the controller's motion since the last sample moves
   * the yaw target by `dx * 1.6` and the pitch target by `-dy * 1.6`, the
   * pitch target is clamped, and the current position becomes the last one.
   */
  function UpdateControllerRotation(s: VrState, poses: Poses): (r: VrState)
    requires Consistent(s.grab)
    ensures !(s.inXR && s.grab.active && s.hasObject) ==> r == s
    ensures s.inXR && s.grab.active && s.hasObject ==>
              var p := poses.Of(s.grab.controller.value);
              var raw := RawPitch(s.pitchTarget, p.y - s.grab.lastPos.y);
              && r.yawTarget == s.yawTarget + (p.x - s.grab.lastPos.x) * RotSens
              && PitchInRange(r.pitchTarget)
              && (PitchInRange(raw) ==> r.pitchTarget == raw)
              && (raw > MaxPitch ==> r.pitchTarget == MaxPitch)
              && (raw < -MaxPitch ==> r.pitchTarget == -MaxPitch)
              && r == s.(yawTarget := r.yawTarget, pitchTarget := r.pitchTarget, grab := s.grab.(lastPos := p))
    ensures Inv(s) ==> Inv(r)
  {
    if !s.inXR || !s.grab.active || !s.hasObject then s
    else
      var p := poses.Of(s.grab.controller.value);
      var dx := p.x - s.grab.lastPos.x;
      var dy := p.y - s.grab.lastPos.y;
      s.(yawTarget := s.yawTarget + dx * RotSens,
         pitchTarget := Clamp(-MaxPitch, MaxPitch, RawPitch(s.pitchTarget, dy)),
         grab := s.grab.(lastPos := p))
  }

  /**
   * The thumbstick step of the frame: a zero stick leaves the target alone;
   * otherwise it moves by `stickY * 0.025` and is clamped to [0.3, 3.5].
   * Pushing the stick up (negative) never increases an in-range target.
   */
  function StepDistanceTarget(target: real, stickY: real): (r: real)
    ensures stickY == 0.0 ==> r == target
    ensures stickY != 0.0 ==> DistanceInRange(r)
    ensures stickY != 0.0 && DistanceInRange(target + stickY * StickDistSens) ==>
              r == target + stickY * StickDistSens
    ensures stickY != 0.0 && target + stickY * StickDistSens < MinDist ==> r == MinDist
    ensures stickY != 0.0 && target + stickY * StickDistSens > MaxDist ==> r == MaxDist
    ensures DistanceInRange(target) ==> DistanceInRange(r)
    ensures DistanceInRange(target) && stickY < 0.0 ==> r <= target
    ensures DistanceInRange(target) && stickY > 0.0 ==> r >= target
  {
    if stickY != 0.0 then Clamp(MinDist, MaxDist, target + stickY * StickDistSens) else target
  }

  /**
   * One smoothing step `v + (t - v) * 0.18`: the result lies between `v` and
   * `t`, the gap to `t` shrinks to 0.82 of what it was, and `v` moves unless
   * it is already at `t`.
   */
  function SmoothStep(v: real, t: real): (r: real)
    ensures Between(v, t, r)
    ensures t - r == Retain * (t - v)
    ensures Abs(t - r) <= Abs(t - v)
    ensures r == v <==> v == t
  {
    v + (t - v) * Smooth
  }

  /** `n` smoothing steps toward a constant target. */
  function Iterate(v: real, t: real, n: nat): real {
    if n == 0 then v else SmoothStep(Iterate(v, t, n - 1), t)
  }

  function Pow(b: real, n: nat): real {
    if n == 0 then 1.0 else b * Pow(b, n - 1)
  }

  /** A gap `d` shrunk by `n` smoothing steps: 0.82 of it, `n` times over. */
  function Shrunk(d: real, n: nat): real {
    if n == 0 then d else Retain * Shrunk(d, n - 1)
  }

  /**
   * Held against a constant target, smoothing never overshoots: after `n`
   * frames the value lies between its start and the target, and the gap is
   * exactly 0.82^n of the original one.
   */
  lemma {:induction false} SmoothingConverges(v: real, t: real, n: nat)
    ensures t - Iterate(v, t, n) == Pow(Retain, n) * (t - v)
    ensures Between(v, t, Iterate(v, t, n))
  {
    SmoothingGap(v, t, n);
    ShrunkIsPower(t - v, n);
    ShrunkStaysWithin(t - v, n);
  }

  /** The gap left after `n` steps is the original gap shrunk `n` times. */
  lemma {:induction false} SmoothingGap(v: real, t: real, n: nat)
    ensures t - Iterate(v, t, n) == Shrunk(t - v, n)
  {
    if n > 0 {
      SmoothingGap(v, t, n - 1);
      assert Iterate(v, t, n) == SmoothStep(Iterate(v, t, n - 1), t);
    }
  }

  /** Shrinking `n` times is multiplying by 0.82^n. */
  lemma {:induction false} ShrunkIsPower(d: real, n: nat)
    ensures Shrunk(d, n) == Pow(Retain, n) * d
  {
    if n > 0 {
      ShrunkIsPower(d, n - 1);
      assert Retain * (Pow(Retain, n - 1) * d) == (Retain * Pow(Retain, n - 1)) * d;
    }
  }

  /** A shrunk gap keeps its sign and never exceeds the original. */
  lemma {:induction false} ShrunkStaysWithin(d: real, n: nat)
    ensures Between(0.0, d, Shrunk(d, n))
  {
    if n > 0 {
      ShrunkStaysWithin(d, n - 1);
    }
  }

  /**
   * `placeObjectInFrontOfCamera(obj, distance)` as far as the interaction
   * state goes: angles and their targets back to 0, distance and its target
   * set to `distance`, and the headset heading remembered as the entry yaw.
   */
  function Place(s: VrState, distance: real, heading: real): (r: VrState)
    ensures r.yawTarget == 0.0 && r.pitchTarget == 0.0 && r.yaw == 0.0 && r.pitch == 0.0
    ensures r.distanceTarget == distance && r.distance == distance
    ensures r.entryYaw == heading
    ensures r.inXR == s.inXR && r.hasObject == s.hasObject && r.grab == s.grab
    ensures Consistent(s.grab) && DistanceInRange(distance) ==> Inv(r)
  {
    s.(yawTarget := 0.0, pitchTarget := 0.0, yaw := 0.0, pitch := 0.0,
       distanceTarget := distance, distance := distance, entryYaw := heading)
  }

  /** The `sessionstart` handler: enter XR, reset the angles, and place the current object if any. */
  function SessionStart(s: VrState, heading: real): (r: VrState)
    ensures r.inXR && r.grab == s.grab && r.hasObject == s.hasObject
    ensures r.yawTarget == 0.0 && r.pitchTarget == 0.0 && r.yaw == 0.0 && r.pitch == 0.0
    ensures s.hasObject ==> r.distance == PlacementDistance && r.distanceTarget == PlacementDistance
    ensures s.hasObject ==> r.entryYaw == heading
    ensures !s.hasObject ==>
              r.distance == s.distance && r.distanceTarget == s.distanceTarget && r.entryYaw == s.entryYaw
  {
    var s' := s.(inXR := true, yawTarget := 0.0, pitchTarget := 0.0, yaw := 0.0, pitch := 0.0);
    if s.hasObject then Place(s', PlacementDistance, heading) else s'
  }

  /** The `sessionend` handler: leave XR and drop any grab. */
  function SessionEnd(s: VrState): (r: VrState)
    ensures !r.inXR && !r.grab.active && r.grab.controller.None?
    ensures r == EndRotate(s).(inXR := false)
  {
    EndRotate(s).(inXR := false)
  }

  /** `loadAny` removes the current object before anything else. */
  function LoadStarted(s: VrState): (r: VrState)
    ensures !r.hasObject && r == s.(hasObject := false)
  {
    s.(hasObject := false)
  }

  /** A load that produced an object; in XR the object is placed in front of the headset. */
  function LoadSucceeded(s: VrState, heading: real): (r: VrState)
    ensures r.hasObject
    ensures s.inXR ==> r == Place(s.(hasObject := true), PlacementDistance, heading)
    ensures !s.inXR ==> r == s.(hasObject := true)
  {
    var s' := s.(hasObject := true);
    if s.inXR then Place(s', PlacementDistance, heading) else s'
  }

  /**
   * The XR part of one animation frame: controller rotation, angle
   * smoothing, the thumbstick step on the distance target, distance
   * smoothing. Outside XR the interaction state does not change.
   */
  function Frame(s: VrState, poses: Poses, session: Option<seq<Thumbstick.InputSource>>): (r: VrState)
    requires Consistent(s.grab)
    ensures !s.inXR ==> r == s
    ensures r.inXR == s.inXR && r.hasObject == s.hasObject && r.entryYaw == s.entryYaw
    ensures Consistent(r.grab)
    ensures Inv(s) ==> Inv(r)
    ensures s.inXR ==> Between(s.yaw, r.yawTarget, r.yaw) && Between(s.pitch, r.pitchTarget, r.pitch)
    ensures s.inXR ==> Between(s.distance, r.distanceTarget, r.distance)
    ensures s.inXR && Thumbstick.ThumbstickY(session) == 0.0 ==> r.distanceTarget == s.distanceTarget
    ensures s.inXR ==>
              var s1 := UpdateControllerRotation(s, poses);
              && r.grab == s1.grab && r.yawTarget == s1.yawTarget && r.pitchTarget == s1.pitchTarget
              && r.yaw == SmoothStep(s.yaw, s1.yawTarget) && r.pitch == SmoothStep(s.pitch, s1.pitchTarget)
              && r.distanceTarget == StepDistanceTarget(s.distanceTarget, Thumbstick.ThumbstickY(session))
              && r.distance == SmoothStep(s.distance, r.distanceTarget)
  {
    if !s.inXR then s
    else
      var s1 := UpdateControllerRotation(s, poses);
      var s2 := s1.(yaw := SmoothStep(s1.yaw, s1.yawTarget), pitch := SmoothStep(s1.pitch, s1.pitchTarget));
      var stickY := Thumbstick.ThumbstickY(session);
      var s3 := s2.(distanceTarget := StepDistanceTarget(s2.distanceTarget, stickY));
      s3.(distance := SmoothStep(s3.distance, s3.distanceTarget))
  }

  /** `n` animation frames in a row with the same controller poses and session. */
  function Frames(s: VrState, poses: Poses, session: Option<seq<Thumbstick.InputSource>>, n: nat): (r: VrState)
    requires Consistent(s.grab)
    ensures Consistent(r.grab) && r.inXR == s.inXR && r.hasObject == s.hasObject
  {
    if n == 0 then s else Frame(Frames(s, poses, session, n - 1), poses, session)
  }

  /**
   * In XR, with no grab and the stick at rest, the targets stay put and every
   * frame is one smoothing step: after `n` frames yaw, pitch and distance are
   * `n` smoothing steps toward their targets, so SmoothingConverges applies.
   */
  lemma {:induction false} FramesSmoothLikeIterate(s: VrState, poses: Poses,
                                                   session: Option<seq<Thumbstick.InputSource>>, n: nat)
    requires Consistent(s.grab) && s.inXR && !s.grab.active
    requires Thumbstick.ThumbstickY(session) == 0.0
    ensures var r := Frames(s, poses, session, n);
            && r.grab == s.grab
            && r.yawTarget == s.yawTarget && r.pitchTarget == s.pitchTarget && r.distanceTarget == s.distanceTarget
            && r.yaw == Iterate(s.yaw, s.yawTarget, n)
            && r.pitch == Iterate(s.pitch, s.pitchTarget, n)
            && r.distance == Iterate(s.distance, s.distanceTarget, n)
  {
    if n > 0 {
      FramesSmoothLikeIterate(s, poses, session, n - 1);
      var q := Frames(s, poses, session, n - 1);
      assert UpdateControllerRotation(q, poses) == q;
    }
  }

  /** A freshly placed object stays put through a frame without grab or stick input. */
  lemma PlacedObjectRests(s: VrState, heading: real, poses: Poses, session: Option<seq<Thumbstick.InputSource>>)
    requires Consistent(s.grab) && !s.grab.active && s.inXR
    requires Thumbstick.ThumbstickY(session) == 0.0
    ensures Frame(Place(s, PlacementDistance, heading), poses, session) == Place(s, PlacementDistance, heading)
  {
  }

  /** Everything that changes the interaction state. Squeeze events behave as select events. */
  datatype Event =
    | SelectStart(controller: Controller, poses: Poses)
    | SelectEnd
    | SessionStarted(heading: real)
    | SessionEnded
    | LoadBegun
    | LoadDone(heading: real)
    | AnimationFrame(poses: Poses, session: Option<seq<Thumbstick.InputSource>>)

  /** The listener an event triggers (app.js registers select and squeeze on both controllers). */
  function Step(s: VrState, e: Event): (r: VrState)
    requires Consistent(s.grab)
    ensures Consistent(r.grab)
    ensures e.SelectStart? ==> r.grab.active && r.grab.controller == Some(e.controller)
    ensures e.SelectEnd? || e.SessionEnded? ==> !r.grab.active
    ensures e.SessionStarted? ==> r.inXR
    ensures e.SessionEnded? ==> !r.inXR
    ensures e.LoadBegun? ==> !r.hasObject
    ensures e.LoadDone? ==> r.hasObject
    ensures e.AnimationFrame? ==> r.inXR == s.inXR && r.hasObject == s.hasObject
    ensures !e.SessionStarted? && !e.SessionEnded? ==> r.inXR == s.inXR
  {
    match e
    case SelectStart(c, poses) => BeginRotate(s, c, poses)
    case SelectEnd => EndRotate(s)
    case SessionStarted(heading) => SessionStart(s, heading)
    case SessionEnded => SessionEnd(s)
    case LoadBegun => LoadStarted(s)
    case LoadDone(heading) => LoadSucceeded(s, heading)
    case AnimationFrame(poses, session) => Frame(s, poses, session)
  }

  /** The events in order, each handled by its listener. */
  function Run(s: VrState, events: seq<Event>): (r: VrState)
    requires Consistent(s.grab)
    ensures Consistent(r.grab)
    ensures |events| == 0 ==> r == s
    decreases |events|
  {
    if |events| == 0 then s else Run(Step(s, events[0]), events[1..])
  }

  /** Handling two runs of events one after the other is handling their concatenation. */
  lemma {:induction false} RunAppend(s: VrState, a: seq<Event>, b: seq<Event>)
    requires Consistent(s.grab)
    ensures Run(s, a + b) == Run(Run(s, a), b)
    decreases |a|
  {
    if |a| == 0 {
      assert a + b == b;
    } else {
      var s1 := Step(s, a[0]);
      var ab := a + b;
      assert ab[0] == a[0];
      assert ab[1..] == a[1..] + b;
      assert Run(s, ab) == Run(s1, a[1..] + b);
      assert Run(s, a) == Run(s1, a[1..]);
      RunAppend(s1, a[1..], b);
    }
  }

  /** Every event keeps the invariant. */
  lemma StepKeepsInv(s: VrState, e: Event)
    requires Inv(s)
    ensures Inv(Step(s, e))
  {
  }

  /**
   * After any sequence of events starting from page load, the pitch target
   * and smoothed pitch stay within ±0.49π and the distance target and smoothed
   * distance within [0.3, 3.5].
   */
  lemma {:induction false} RunKeepsInv(s: VrState, events: seq<Event>)
    requires Inv(s)
    ensures Inv(Run(s, events))
    decreases |events|
  {
    if |events| > 0 {
      StepKeepsInv(s, events[0]);
      RunKeepsInv(Step(s, events[0]), events[1..]);
    }
  }

  lemma ReachableStatesInRange(events: seq<Event>)
    ensures Inv(Run(Init, events))
  {
    RunKeepsInv(Init, events);
  }
}

=== FILE: wrappers.dfy ===
/** Optional values and results shared by the viewer's modules. */
module Wrappers {

  /** A value that may be absent (JavaScript's `null` / `undefined`). */
  datatype Option<+T> = None | Some(value: T)

  /** The outcome of an operation that either yields a value or fails with a message. */
  datatype Result<+R, +E> = Success(value: R) | Failure(error: E)
}
